=== FILE: README.md ===
# Frogger game-state engine in Dafny

This project models the state machine behind a browser Frogger game. The
player is a frog. It crosses roads with cars and tigers, and rivers with
planks and lotus leaves. It fills five targets at the top of the board.

The model covers the reducer that folds three kinds of event over an
immutable game state:

- a move by a fixed step,
- a clock tick,
- a restart.

It also covers everything the reducer calls: the vector arithmetic, the
rectangle and circle collision tests, the spawn tables, the per-tick fleet
update, the bounded and tree-blocked move, and the end-of-tick rules. The
end-of-tick rules cover the targets, the points and bonus, and game over.

Modules, one per file:

- `Lists` (`lists.dfy`): the `filter`, `map` and `not` array operations the
  engine is written with. It also has the partition facts about them.
- `Vectors` (`vectors.dfy`): the 2-D vector value.
- `Bodies` (`bodies.dfy`): the constants, game objects, their constructors,
  and the two collision tests.
- `Motion` (`motion.dfy`): going out of play, recycling cars and planks,
  the tiger fleet's turn, and one step of motion.
- `Layout` (`layout.dfy`): the state record, the spawn tables and the
  initial state.
- `Scoring` (`scoring.dfy`): the end-of-tick rules, as a function of the
  state and the five target flags.
- `Engine` (`engine.dfy`): the move, the physics half of a tick, the
  reducer as a function (`Step`) and its fold over an event sequence
  (`Run`), and the lemmas about whole runs. It also has the class `Game`.

The five target flags are the only state the game updates in place, so
they are the field `fill` of the class `Game`. Its methods `ResetTarget`,
`TargetFilling`, `HandleCollision`, `Tick` and `ReduceState` update the
flags in the game's order. The unfilled test reads the flags before the
reached target is marked, and the all-filled test reads them after. Each
method is proved to agree with a pure specification that the lemmas reason
about:

- `ResetTarget` with `Scoring.NoneFilled`,
- `TargetFilling` with `Scoring.MarkHit` of `Scoring.HitTarget`,
- `HandleCollision` with `Scoring.Collide`,
- `Tick` with `Engine.Ticked`,
- `ReduceState` with `Engine.Step`.

The three input kinds (a move by (x, y), a tick carrying the elapsed count,
and a restart; src/main.ts:421-423) are the datatype `Engine.Event`.

Coordinates are exact `real`s. The circle test compares squared distance
with the squared sum of the radii.

Several details follow the code as written:

- The "all targets filled" test that guards the score is evaluated once,
  when the game is set up and every flag is still false. So it is always
  false, and the 100-point bonus never enters the score. The bonus only
  raises the best score, to at least the pre-award score plus 100.
- `exit` only grows. A tick appends what left play, and a restart appends
  the old fleets.
- Moves are applied even after game over.
- The playfield bounds are strict.
- Targets are only checked on a tick.
- A restart from game over also sets the best score back to zero.
- The restart branch also writes a lower-case `gameover: false` key. That
  key is not a field of the state and the initial state is not over
  anyway, so the model ignores it.

Lane direction in the spawn tables uses JavaScript's truncating `%`
(`Layout.LaneRem`). With the tables as given, the two lower car rows move
left, the top car row moves right, and every plank and every tiger moves
right. Motion is `pos - vel`.

## Model

| member | source | states |
|---|---|---|
| Vectors.Vec.Deduce | src/main.ts:627 | Both components are multiplied by the factor: 1 keeps the vector, -1 negates both components, 0 gives the zero vector. |
| Vectors.AddLaws | src/main.ts:623-624 | Addition is commutative, has the zero vector as identity, and subtracting what was added restores the vector. |
| Vectors.Vec.Sub | src/main.ts:623-627 | The difference is the componentwise difference, and adding the subtrahend back restores the vector. |
| Vectors.Vec.Scale | src/main.ts:626 | The horizontal component is kept and the vertical one is multiplied by the factor. A factor of 1, or a vector with no vertical part, leaves the vector unchanged. |
| Lists.Not | src/main.ts:632 | The negated predicate holds exactly where the original does not. |
| Bodies.NatToString | src/main.ts:134 | The ordinal written into an id is a non-empty string of decimal digits, one digit exactly below ten, with no leading zero. |
| Bodies.NatToStringValue | src/main.ts:134 | The digits written into an id, read as a decimal number, give back the ordinal. |
| Bodies.NatToStringInjective | src/main.ts:134 | Different ordinals give different digit strings, so two bodies of one kind with different ordinals get different ids. |
| Bodies.CreateRect | src/main.ts:127-138 | A rectangle has radius 0, the given extents, position, velocity and view type, and the id is the view type followed by the ordinal. |
| Bodies.CreateCirc | src/main.ts:141-152 | A circle has width and height 0, the given radius, position, velocity and view type, and the same id scheme. |
| Bodies.CreateFrog | src/main.ts:406-418 | The player starts at (300, 700), standing still, with positive width, height and radius. |
| Bodies.BodiesCollided | src/main.ts:168-193 | The eight-way split collides when the position equals the obstacle's anchor. For a player of positive extent and an obstacle of non-negative extent, it holds exactly inside the open box from half the player's width left of the anchor to the obstacle's width plus half the player's width right of it, and the same vertically. |
| Bodies.CircleBodyCollided | src/main.ts:201 | A circle overlap requires a positive sum of radii, and the centres then differ by less than that sum on each axis. |
| Bodies.CircleIsDistance | src/main.ts:201 | For the non-negative square root of the squared distance between the centres, the squared test holds exactly when that distance is below the sum of the radii. |
| Bodies.AnyCollided | src/main.ts:203-209 | "The filtered fleet is non-empty" holds exactly when some body of the fleet collides with the player. |
| Bodies.AnyCircleCollided | src/main.ts:207 | The same equivalence for the lotus leaves and the circle test. |
| Motion.Expired | src/main.ts:375 | A body out of play is left of or right of the board. A body whose horizontal position is on the board is in play. |
| Motion.Revive | src/main.ts:358-367 | Only the horizontal position changes. Past the right edge it becomes 0, past the left edge 600. A body in play is unchanged, and no revived body is out of play. |
| Motion.Turnback | src/main.ts:369-373 | Only the velocity changes, and the new velocity added to the old one is zero. |
| Motion.MoveObj | src/main.ts:345-349 | Only position and velocity change. The new position plus the old velocity is the old position. The velocity keeps its horizontal part and its vertical part is multiplied by 1.01. |
| Motion.RecycleFleet | src/main.ts:375-387 | A recycled fleet keeps its length, has no body out of play, and equals the old fleet when nothing was out of play. |
| Motion.RecycledFromFleet | src/main.ts:377-387 | Every body of the recycled fleet is some body of the old fleet passed through the revival. |
| Motion.RecyclePermutes | src/main.ts:377-387 | Ignoring horizontal positions, the recycled fleet is a permutation of the old one. |
| Motion.WanderTiger | src/main.ts:389-391 | If any tiger is out of play, every tiger is turned back in place. Otherwise the fleet is unchanged. The length is kept. |
| Layout.LaneRem | src/main.ts:274 | The truncated remainder lies strictly between -100 and 100, differs from the dividend by a multiple of 100, and has the dividend's sign. |
| Layout.NewTree | src/main.ts:257-260 | A tree is a still 10 by 20 rectangle at its table position. |
| Layout.NewCar | src/main.ts:271-274 | A car is a 40 by 20 rectangle at its row position. Its velocity is horizontal. For a non-negative row height, which every table height is, it is the row's speed when the height is 50 modulo 100 and its negation otherwise. |
| Layout.NewPlank | src/main.ts:287-290 | A plank is a 70 by 30 rectangle. Its direction is decided the same way on the row height plus 10, stated for a row height of at least -10. |
| Layout.NewLotusLeaf | src/main.ts:306-309 | A leaf is a still circle of radius 20 at its table position. |
| Layout.NewTiger | src/main.ts:319-322 | A tiger is a 40 by 40 square, directed like a car (stated for a non-negative row height). |
| Layout.StartTrees | src/main.ts:267 | One tree per table spot, at that spot, with id "tree" followed by its index; each is `Layout.NewTree` of its table entry and index. |
| Layout.StartCars | src/main.ts:283 | One car per table row, at that row's position, with id "car" followed by its index; each is `Layout.NewCar` of its table entry and index. |
| Layout.StartPlanks | src/main.ts:298 | One plank per table row, at that row's position, with id "plank" followed by its index; each is `Layout.NewPlank` of its table entry and index. |
| Layout.StartLeaves | src/main.ts:311 | One lotus leaf per table spot, at that spot, with id "LotusLeaf" followed by its index; each is `Layout.NewLotusLeaf` of its table entry and index. |
| Layout.StartTigers | src/main.ts:325 | One tiger per table row, at that row's position, with id "tiger" followed by its index; each is `Layout.NewTiger` of its table entry and index. |
| Layout.InitialState | src/main.ts:328-342 | The player is at the start, scores and time are 0, the game is not over, `exit` is empty, the object count is 12. The cars, planks, tigers, leaves and trees are exactly the start fleets built from the spawn tables, of sizes 9, 9, 6, 6 and 9. |
| Layout.InitialFleetsInPlay | src/main.ts:277-325 | No initial car, plank or tiger is out of play. |
| Layout.InitialLaneDirections | src/main.ts:271-325 | The initial cars of the two lower rows have positive horizontal velocity and those of the top row negative. Every plank and every tiger has negative horizontal velocity. |
| Scoring.AllFilled | src/main.ts:243-244 | The all-filled test holds exactly when each of the five flags is set, and fails exactly when some flag is clear. |
| Scoring.CheckFullyFillNeverHolds | src/main.ts:155 | The all-filled value that guards the score, taken once while every flag is still clear, is false. |
| Scoring.Max | src/main.ts:252 | The result is one of the two arguments and at least both. |
| Scoring.Reach | src/main.ts:214-218 | A target counts exactly when the player's position equals it. |
| Scoring.TargetsDistinct | src/main.ts:58-82 | The five target positions are pairwise different. |
| Scoring.HitTarget | src/main.ts:214-233 | The target found is the one the player sits on, and there is none exactly when the player is on no target. |
| Scoring.InRiver | src/main.ts:205-212 | The player is in a river exactly when its height is strictly between the river's edges, it overlaps no plank, and it overlaps no leaf. |
| Scoring.GameOverAt | src/main.ts:201-212 | The game is over exactly when a car hits, the player is in either river, or a tiger hits. |
| Scoring.MarkHit | src/main.ts:229-233 | The hit target's flag is set and the other flags are kept. No hit keeps all flags. |
| Scoring.Collide | src/main.ts:197-254 | Only position, score, game over and best score change. Game over is judged at the pre-reset position. A hit target sends the player to (300, 700) and adds 20 if its flag was clear or 10 if set. When the flags become all set they are all cleared and the best score becomes the maximum of itself and the pre-award score plus 100. No hit keeps position and score. The flags never end all set, and neither the score nor the best score drops. |
| Engine.CheckTreeExist | src/main.ts:446-450 | A tree blocks the position exactly when some tree collides with the player there. |
| Engine.TorusWrap | src/main.ts:453-461 | The result is the displaced position or the old one. A changed position is strictly inside the 600 by 780 board and touches no tree. A displaced position that is inside and touches no tree is taken. A player on the board stays on it. |
| Engine.MoveFleet | src/main.ts:377-396 | The length is kept. Every moved body is some old body, revived if it was out of play, then moved one step. When nothing was out of play, each body is just moved one step in place. |
| Engine.MoveTigers | src/main.ts:389-401 | If any tiger is out of play, each tiger is turned back and then moved. Otherwise each is only moved. |
| Engine.Advance | src/main.ts:393-402 | `time` becomes the elapsed count and the object count grows by one. `exit` becomes the old `exit` followed by the expired cars, planks and tigers. Fleets and frog are moved. Position, scores, game over, leaves and trees are unchanged. |
| Engine.Ticked | src/main.ts:355-403 | After a whole tick, the flags are five and never all set, the old `exit` is a prefix of the new one, neither score drops, `time` becomes the tick's elapsed count and the object count grows by one, leaves and trees are kept, and game over is judged on the moved state. |
| Engine.Step | src/main.ts:464-498 | Every event keeps five flags, never completes them, and keeps the old `exit` as a prefix. No event but a restart lowers either score. A move changes only the position, to exactly where the bounded, tree-blocked move takes it. A tick or restart that does not apply returns the state and flags unchanged. A running tick is a whole tick. A restart after game over gives the initial state with cleared flags and the old fleets appended to `exit`. |
| Engine.Run | src/main.ts:612-616 | Folding the reducer over any event sequence keeps exactly five target flags. |
| Engine.RunKeepsTargetsIncomplete | src/main.ts:237-244 | From flags that are not all set, no sequence of events leaves them all set. |
| Engine.NoReachableStateFillsAll | src/main.ts:155-164 | From the start of the game, no reachable moment has all five targets filled. |
| Engine.ExitAccumulates | src/main.ts:398-483 | Along any run, the earlier `exit` is a prefix of the later one. |
| Engine.ScoresNeverDropWithoutReset | src/main.ts:249-252 | Along a run without restarts, neither score nor best score decreases. |
| Engine.GameOverIsTerminal | src/main.ts:464-498 | Once the game is over, until a restart, the flags and every field except the position stay as they are. |
| Engine.Game.constructor | src/main.ts:58-82 | All five targets start unfilled. |
| Engine.Game.ResetTarget | src/main.ts:158-164 | Afterwards all five flags are clear. |
| Engine.Game.HandleCollision | src/main.ts:197-254 | The in-place rules give the state and flags that `Scoring.Collide` specifies. |
| Engine.Game.TargetFilling | src/main.ts:229-233 | The flag of the target the player sits on is set in place, and no other flag changes. |
| Engine.Game.Tick | src/main.ts:355-403 | A tick gives exactly the state and flags of `Engine.Ticked`. |
| Engine.Game.ReduceState | src/main.ts:464-498 | The reducer gives exactly the state and flags of `Engine.Step`. |

## Left out

- The SVG and DOM work: the score texts, the `updateView` renderer, and the removal of the game-over texts on restart. These are view side effects, not state.
- The timer and the key streams (`interval`, `observeKey`, `merge`, `scan`, `subscribe`) and the `window.onload` bootstrap. They appear only as the event sequence given to `Engine.Run`. The key bindings' step sizes are not modelled.
- IEEE-754 floating point. Coordinates and speeds are exact reals, so rounding of 0.8, 1.01 and similar constants is not captured.
- Bodies.CircleBodyCollided: compares the squared distance with the squared sum of radii instead of taking a square root. `Bodies.CircleIsDistance` proves this equal to the game's distance test, with the square root taken as a parameter.
- `Vec.len` and `Vec.ortho`: the first is replaced by the squared length, and the second is never called by the game.
- The `acc` and `createTime` fields of bodies, the targets' `width` and the rivers' `width`: the logic never reads them.
- Motion.RecycleFleet: states length, being in play and permutation (up to horizontal position). It does not state as a separate property that the bodies still in play come first in their original order. That order is only how the function is defined.

=== FILE: bodies.dfy ===
/** Game objects and the two collision primitives the engine builds on. */
module Bodies {
  import opened Vectors
  import opened Lists

  // Playfield size, start position and fleet dimensions.
  const CanvasW: real := 600.0
  const CanvasH: real := 780.0
  const InitX: real := 300.0
  const InitY: real := 700.0
  const CarWidth: real := 40.0
  const CarHeight: real := 20.0
  const StartCarCount: int := 12
  const PlankWidth: real := 70.0
  const PlankHeight: real := 30.0
  const LotusLeafRadius: real := 20.0
  const TigerWidth: real := 40.0
  const TreeWidth: real := 10.0
  const TreeHeight: real := 20.0
  const BonusPoint: int := 100

  /** What a body is drawn as; it also names the body's `id`. */
  datatype ViewType = Frog | Car | Target | River | Plank | LotusLeaf | Tiger | Tree

  function ViewName(v: ViewType): string {
    match v
    case Frog => "frog"
    case Car => "car"
    case Target => "target"
    case River => "river"
    case Plank => "plank"
    case LotusLeaf => "LotusLeaf"
    case Tiger => "tiger"
    case Tree => "tree"
  }

  /** Decimal digits of `n`, as JavaScript writes a number into a string:
      never empty, only digits, one digit below ten, and no leading zero. */
  function NatToString(n: nat): (r: string)
    ensures |r| > 0
    ensures forall k :: 0 <= k < |r| ==> '0' <= r[k] <= '9'
    ensures n < 10 <==> |r| == 1
    ensures |r| > 1 ==> r[0] != '0'
  {
    if n < 10 then [Digit(n)] else NatToString(n / 10) + [Digit(n % 10)]
  }

  function Digit(d: nat): (c: char)
    requires d < 10
    ensures '0' <= c <= '9'
    ensures c == '0' <==> d == 0
  {
    "0123456789"[d]
  }

  /** The number a string of decimal digits denotes, read left to right. */
  function DigitsValue(s: string): int {
    if s == [] then 0 else DigitsValue(s[..|s| - 1]) * 10 + (s[|s| - 1] as int - '0' as int)
  }

  /** The digits of `n` denote `n`. */
  lemma {:induction false} NatToStringValue(n: nat)
    ensures DigitsValue(NatToString(n)) == n
  {
    var r := NatToString(n);
    if n < 10 {
      assert n in {0, 1, 2, 3, 4, 5, 6, 7, 8, 9};
    } else {
      assert r[..|r| - 1] == NatToString(n / 10);
      NatToStringValue(n / 10);
      var d := n % 10;
      assert d in {0, 1, 2, 3, 4, 5, 6, 7, 8, 9};
    }
  }

  /** Different ordinals give different digit strings, and so different ids
      for two bodies of the same kind. */
  lemma NatToStringInjective(v: ViewType, m: nat, n: nat)
    ensures NatToString(m) == NatToString(n) ==> m == n
    ensures ViewName(v) + NatToString(m) == ViewName(v) + NatToString(n) ==> m == n
  {
    NatToStringValue(m);
    NatToStringValue(n);
    var a := ViewName(v);
    assert (a + NatToString(m))[|a|..] == NatToString(m);
    assert (a + NatToString(n))[|a|..] == NatToString(n);
  }

  /** An immutable snapshot of one game object. Rectangles use `width` and
      `height`, circles use `radius`. */
  datatype Body = Body(
    id: string,
    pos: Vec,
    vel: Vec,
    width: real,
    height: real,
    viewType: ViewType,
    radius: real)

  /** A rectangular body: its radius is zero and its id is the view type
      followed by the ordinal. */
  function CreateRect(viewType: ViewType, oid: nat, width: real, height: real, pos: Vec, vel: Vec): (r: Body)
    ensures r.radius == 0.0 && r.width == width && r.height == height
    ensures r.pos == pos && r.vel == vel && r.viewType == viewType
    ensures r.id == ViewName(viewType) + NatToString(oid)
  {
    Body(ViewName(viewType) + NatToString(oid), pos, vel, width, height, viewType, 0.0)
  }

  /** A circular body: its width and height are zero and its id is the view
      type followed by the ordinal. */
  function CreateCirc(viewType: ViewType, oid: nat, radius: real, pos: Vec, vel: Vec): (r: Body)
    ensures r.width == 0.0 && r.height == 0.0 && r.radius == radius
    ensures r.pos == pos && r.vel == vel && r.viewType == viewType
    ensures r.id == ViewName(viewType) + NatToString(oid)
  {
    Body(ViewName(viewType) + NatToString(oid), pos, vel, 0.0, 0.0, viewType, radius)
  }

  /** The player's body: at the start position, standing still. */
  function CreateFrog(): (r: Body)
    ensures r.pos == Vec(InitX, InitY) && r.vel == Zero
    ensures r.width > 0.0 && r.height > 0.0 && r.radius > 0.0
  {
    Body("frog", Vec(InitX, InitY), Zero, 40.0, 30.0, Frog, 10.0)
  }

  /** Whether the player standing at `pos`, with the extents of `a`, overlaps
      the rectangle `b` (anchored at its corner `b.pos`). The test is an
      eight-way split on where `pos` lies relative to `b.pos`, ending in the
      exact-corner case. For a player of positive extent against an obstacle
      of non-negative extent the branches together amount to one open box
      around the obstacle: half the player's width to the left, the obstacle's
      width plus half the player's width to the right, and likewise
      vertically. */
  function BodiesCollided(pos: Vec, a: Body, b: Body): (r: bool)
    ensures pos == b.pos ==> r
    ensures a.width > 0.0 && a.height > 0.0 && b.width >= 0.0 && b.height >= 0.0 ==>
      (r <==>
        && b.pos.x - a.width / 2.0 < pos.x < b.pos.x + b.width + a.width / 2.0
        && b.pos.y - a.height / 2.0 < pos.y < b.pos.y + b.height + a.height / 2.0)
  {
    // left of and below the obstacle's corner
    if pos.x < b.pos.x && pos.y > b.pos.y then
      b.pos.Sub(pos).x < a.width / 2.0 && pos.Sub(b.pos).y < a.height / 2.0 + b.height
    // right of and below
    else if pos.x > b.pos.x && pos.y > b.pos.y then
      pos.Sub(b.pos).x < a.width / 2.0 + b.width && pos.Sub(b.pos).y < a.height / 2.0 + b.height
    // left of and above
    else if pos.x < b.pos.x && pos.y < b.pos.y then
      b.pos.Sub(pos).x < a.width / 2.0 && b.pos.Sub(pos).y < a.height / 2.0
    // right of and above
    else if pos.x > b.pos.x && pos.y < b.pos.y then
      pos.Sub(b.pos).x < a.width / 2.0 + b.width && b.pos.Sub(pos).y < a.height / 2.0
    // straight above
    else if pos.x == b.pos.x && pos.y < b.pos.y then
      b.pos.Sub(pos).y < a.height / 2.0
    // straight below
    else if pos.x == b.pos.x && pos.y > b.pos.y then
      pos.Sub(b.pos).y < a.height / 2.0 + b.height
    // straight left
    else if pos.y == b.pos.y && pos.x < b.pos.x then
      b.pos.Sub(pos).x < a.width / 2.0
    // straight right
    else if pos.y == b.pos.y && pos.x > b.pos.x then
      pos.Sub(b.pos).x < a.width / 2.0 + b.width
    else
      pos.x == b.pos.x && pos.y == b.pos.y
  }

  /** A sum of squares below `m * m`, for positive `m`, bounds its first
      term within (-m, m). */
  lemma SquareBound(d: real, e: real, m: real)
    ensures m > 0.0 && d * d + e * e < m * m ==> -m < d < m
  {
    if m > 0.0 && d * d + e * e < m * m {
      assert e * e >= 0.0;
      assert (d - m) * (d + m) < 0.0;
    }
  }

  /** Whether the circle of `a` centred at `pos` overlaps the circle `b`: the
      distance between the centres is below the sum of the radii. Compared
      squared; the sum must be positive, since a distance is never negative.
      Overlapping centres lie less than the sum apart on each axis. */
  function CircleBodyCollided(pos: Vec, a: Body, b: Body): (r: bool)
    ensures r ==> a.radius + b.radius > 0.0
    ensures r ==> -(a.radius + b.radius) < pos.x - b.pos.x < a.radius + b.radius
    ensures r ==> -(a.radius + b.radius) < pos.y - b.pos.y < a.radius + b.radius
  {
    var sum := a.radius + b.radius;
    var d := pos.Sub(b.pos);
    SquareBound(d.x, d.y, sum);
    SquareBound(d.y, d.x, sum);
    sum > 0.0 && d.Len2() < sum * sum
  }

  /** The squared comparison is the distance test: for the non-negative root
      `q` of the squared distance between the centres, the circles overlap
      exactly when `q` is below the sum of the radii. */
  lemma CircleIsDistance(pos: Vec, a: Body, b: Body, q: real)
    requires q >= 0.0 && q * q == pos.Sub(b.pos).Len2()
    ensures CircleBodyCollided(pos, a, b) <==> q < a.radius + b.radius
  {
    var m := a.radius + b.radius;
    if q < m {
      var u, v := m - q, m + q;
      assert u > 0.0 && v > 0.0;
      assert u * v > 0.0;
      assert u * v == m * m - q * q;
      assert m > 0.0 && q * q < m * m;
    } else if m > 0.0 {
      var u, v := q - m, q + m;
      assert u >= 0.0 && v > 0.0;
      assert u * v >= 0.0;
      assert u * v == q * q - m * m;
    }
  }

  /** Whether the player at `pos` overlaps any of the rectangles `bs`, asked
      by filtering the fleet and testing for a non-empty result. */
  function AnyCollided(pos: Vec, a: Body, bs: seq<Body>): (r: bool)
    ensures r <==> exists i :: 0 <= i < |bs| && BodiesCollided(pos, a, bs[i])
  {
    FilterNonEmpty(b => BodiesCollided(pos, a, b), bs);
    |Filter(b => BodiesCollided(pos, a, b), bs)| > 0
  }

  /** Whether the player's circle at `pos` overlaps any of the circles `bs`. */
  function AnyCircleCollided(pos: Vec, a: Body, bs: seq<Body>): (r: bool)
    ensures r <==> exists i :: 0 <= i < |bs| && CircleBodyCollided(pos, a, bs[i])
  {
    FilterNonEmpty(b => CircleBodyCollided(pos, a, b), bs);
    |Filter(b => CircleBodyCollided(pos, a, b), bs)| > 0
  }
}

=== FILE: engine.dfy ===
/** The transition engine: the player's move, the tick, the restart, and
    the reducer that folds these events over the state. The five target
    flags are not part of the state: they belong to the running game and
    are updated in place. */
module Engine {
  import opened Vectors
  import opened Lists
  import opened Bodies
  import opened Motion
  import opened Layout
  import opened Scoring

  /** The three kinds of input: a move by (x, y), a clock tick carrying the
      elapsed tick count, and a restart request. */
  datatype Event = Movement(x: real, y: real) | Tick(elapsed: int) | Reset

  /** Whether some tree blocks the player at `pos`. */
  function CheckTreeExist(s: State, pos: Vec): (r: bool)
    ensures r <==> exists i :: 0 <= i < |s.tree| && BodiesCollided(pos, s.frog, s.tree[i])
  {
    AnyCollided(pos, s.frog, s.tree)
  }

  /** Strictly inside the playfield. */
  predicate OnBoard(p: Vec) {
    0.0 < p.x < CanvasW && 0.0 < p.y < CanvasH
  }

  /** Where a move by (dx, dy) takes the player: the displaced position when
      it lies strictly inside the playfield and touches no tree, otherwise the
      old position. A player on the board stays on the board. */
  function TorusWrap(s: State, dx: real, dy: real): (r: Vec)
    ensures r == s.pos.Add(Vec(dx, dy)) || r == s.pos
    ensures r != s.pos ==>
      OnBoard(r) && forall i :: 0 <= i < |s.tree| ==> !BodiesCollided(r, s.frog, s.tree[i])
    ensures OnBoard(s.pos.Add(Vec(dx, dy)))
      && (forall i :: 0 <= i < |s.tree| ==> !BodiesCollided(s.pos.Add(Vec(dx, dy)), s.frog, s.tree[i]))
      ==> r == s.pos.Add(Vec(dx, dy))
    ensures OnBoard(s.pos) ==> OnBoard(r)
  {
    var newPos := s.pos.Add(Vec(dx, dy));
    if newPos.x < CanvasW && newPos.x > 0.0 && newPos.y < CanvasH && newPos.y > 0.0
      && !CheckTreeExist(s, newPos)
    then newPos
    else s.pos
  }

  /** A car or plank fleet recycled, then moved one step. The fleet keeps
      its size; every body of it is one step of the revival of some old
      body; and a fleet with nothing out of play just takes one step. */
  function MoveFleet(bs: seq<Body>): (r: seq<Body>)
    ensures |r| == |bs|
    ensures forall i :: 0 <= i < |bs| ==> r[i] == MoveObj(RecycleFleet(bs)[i])
    ensures forall i :: 0 <= i < |r| ==> exists j :: 0 <= j < |bs| && r[i] == MoveObj(Revive(bs[j]))
    ensures (forall i :: 0 <= i < |bs| ==> !Expired(bs[i])) ==>
      forall i :: 0 <= i < |bs| ==> r[i] == MoveObj(bs[i])
  {
    RecycledFromFleet(bs);
    Map(MoveObj, RecycleFleet(bs))
  }

  /** The tiger fleet turned as one if need be, then moved one step. */
  function MoveTigers(ts: seq<Body>): (r: seq<Body>)
    ensures |r| == |ts|
    ensures (exists i :: 0 <= i < |ts| && Expired(ts[i])) ==>
      forall i :: 0 <= i < |ts| ==> r[i] == MoveObj(Turnback(ts[i]))
    ensures (forall i :: 0 <= i < |ts| ==> !Expired(ts[i])) ==>
      forall i :: 0 <= i < |ts| ==> r[i] == MoveObj(ts[i])
  {
    Map(MoveObj, WanderTiger(ts))
  }

  /** The physics half of a tick, before the end-of-tick rules: every fleet
      moved (cars and planks recycled first, tigers turned first if need
      be), the bodies that were out of play appended to `exit`, the tick
      counted. Leaves, trees, the player's position and the scores are
      untouched. */
  function Advance(s: State, elapsed: int): (r: State)
    ensures r.time == elapsed && r.objCount == s.objCount + 1
    ensures r.exit == s.exit + Filter(Expired, s.cars) + Filter(Expired, s.planks) + Filter(Expired, s.tiger)
    ensures r.frog == MoveObj(s.frog) && (s.frog.vel == Zero ==> r.frog == s.frog)
    ensures r.cars == MoveFleet(s.cars) && r.planks == MoveFleet(s.planks) && r.tiger == MoveTigers(s.tiger)
    ensures r.pos == s.pos && r.score == s.score && r.maxScore == s.maxScore && r.gameOver == s.gameOver
    ensures r.leaf == s.leaf && r.tree == s.tree
  {
    var expiredCars := Filter(Expired, s.cars);
    var expiredPlanks := Filter(Expired, s.planks);
    var expiredTiger := Filter(Expired, s.tiger);
    var cars := MoveFleet(s.cars);
    var planks := MoveFleet(s.planks);
    var tiger := MoveTigers(s.tiger);
    s.(frog := MoveObj(s.frog),
       cars := cars,
       time := elapsed,
       exit := s.exit + expiredCars + expiredPlanks + expiredTiger,
       objCount := s.objCount + 1,
       planks := planks,
       tiger := tiger)
  }

  /** A whole tick: the physics, then the end-of-tick rules on the moved
      state. The flags never end all set, `exit` only grows, neither score
      drops, and the tick is counted. */
  function Ticked(s: State, fill: seq<bool>, elapsed: int): (r: (State, seq<bool>))
    requires |fill| == 5
    ensures |r.1| == 5 && !AllFilled(r.1)
    ensures s.exit <= r.0.exit
    ensures r.0.maxScore >= s.maxScore && r.0.score >= s.score
    ensures r.0.time == elapsed && r.0.objCount == s.objCount + 1
    ensures r.0.leaf == s.leaf && r.0.tree == s.tree
    ensures r.0.gameOver == GameOverAt(Advance(s, elapsed))
  {
    Collide(Advance(s, elapsed), fill)
  }

  /** The reducer with the target flags made explicit: from state `s` and
      flags `fill`, event `e` gives the next state and flags. A move changes
      only the position, even after the game is over; a tick is ignored once
      the game is over; a restart is ignored while the game runs, and after
      it is over gives the initial layout (best score back to zero) with
      every flag cleared and all previous fleets appended to `exit`. */
  function Step(s: State, fill: seq<bool>, e: Event): (r: (State, seq<bool>))
    requires |fill| == 5
    ensures |r.1| == 5
    ensures !AllFilled(fill) ==> !AllFilled(r.1)
    ensures s.exit <= r.0.exit
    ensures !e.Reset? ==> r.0.maxScore >= s.maxScore && r.0.score >= s.score
    ensures e.Movement? ==>
      r.1 == fill && r.0 == s.(pos := r.0.pos)
      && (r.0.pos == s.pos.Add(Vec(e.x, e.y)) || r.0.pos == s.pos)
    ensures e.Movement? ==> r == (s.(pos := TorusWrap(s, e.x, e.y)), fill)
    ensures e.Tick? && s.gameOver ==> r == (s, fill)
    ensures e.Tick? && !s.gameOver ==> r == Ticked(s, fill, e.elapsed)
    ensures e.Reset? && !s.gameOver ==> r == (s, fill)
    ensures e.Reset? && s.gameOver ==>
      r.1 == NoneFilled && r.0 == InitialState().(exit := s.exit + s.cars + s.planks + s.tiger)
  {
    match e
    case Movement(dx, dy) => (s.(pos := TorusWrap(s, dx, dy)), fill)
    case Reset =>
      if s.gameOver then (InitialState().(exit := s.exit + s.cars + s.planks + s.tiger), NoneFilled)
      else (s, fill)
    case Tick(elapsed) =>
      if !s.gameOver then Ticked(s, fill, elapsed)
      else (s, fill)
  }

  /** The stream of states: events folded one at a time, starting from `s`
      with flags `fill`. */
  function Run(s: State, fill: seq<bool>, events: seq<Event>): (r: (State, seq<bool>))
    requires |fill| == 5
    ensures |r.1| == 5
    decreases |events|
  {
    if events == [] then (s, fill)
    else
      var next := Step(s, fill, events[0]);
      Run(next.0, next.1, events[1..])
  }

  predicate NoReset(events: seq<Event>) {
    forall i :: 0 <= i < |events| ==> !events[i].Reset?
  }

  /** Once not all five flags are set, no sequence of events sets them all. */
  lemma {:induction false} RunKeepsTargetsIncomplete(s: State, fill: seq<bool>, events: seq<Event>)
    requires |fill| == 5 && !AllFilled(fill)
    ensures !AllFilled(Run(s, fill, events).1)
    decreases |events|
  {
    if events != [] {
      var next := Step(s, fill, events[0]);
      RunKeepsTargetsIncomplete(next.0, next.1, events[1..]);
    }
  }

  /** From the start of the game, no reachable moment has all five targets
      filled. */
  lemma {:induction false} NoReachableStateFillsAll(events: seq<Event>)
    ensures !AllFilled(Run(InitialState(), NoneFilled, events).1)
  {
    RunKeepsTargetsIncomplete(InitialState(), NoneFilled, events);
  }

  /** `exit` only ever grows: whatever it held is a prefix of what it holds
      after any further events. */
  lemma {:induction false} ExitAccumulates(s: State, fill: seq<bool>, events: seq<Event>)
    requires |fill| == 5
    ensures s.exit <= Run(s, fill, events).0.exit
    decreases |events|
  {
    if events != [] {
      var next := Step(s, fill, events[0]);
      ExitAccumulates(next.0, next.1, events[1..]);
    }
  }

  /** Without a restart, neither the score nor the best score ever drops. */
  lemma {:induction false} ScoresNeverDropWithoutReset(s: State, fill: seq<bool>, events: seq<Event>)
    requires |fill| == 5 && NoReset(events)
    ensures Run(s, fill, events).0.score >= s.score
    ensures Run(s, fill, events).0.maxScore >= s.maxScore
    decreases |events|
  {
    if events != [] {
      var next := Step(s, fill, events[0]);
      ScoresNeverDropWithoutReset(next.0, next.1, events[1..]);
    }
  }

  /** Game over is terminal for everything but the player's position: until
      a restart, ticks change nothing, moves change only the position, and
      the flags stay as they are. */
  lemma {:induction false} GameOverIsTerminal(s: State, fill: seq<bool>, events: seq<Event>)
    requires |fill| == 5 && s.gameOver && NoReset(events)
    ensures Run(s, fill, events).1 == fill
    ensures Run(s, fill, events).0 == s.(pos := Run(s, fill, events).0.pos)
    decreases |events|
  {
    if events != [] {
      var next := Step(s, fill, events[0]);
      GameOverIsTerminal(next.0, next.1, events[1..]);
    }
  }

  /** The running game. Its only mutable part is the fill flags of the five
      targets, which the end-of-tick rules and the restart update in place. */
  class Game {
    /** The fill flags of target1 to target5. */
    var fill: seq<bool>

    ghost predicate Valid()
      reads this
    {
      |fill| == 5
    }

    constructor ()
      ensures Valid() && fill == NoneFilled
    {
      fill := NoneFilled;
    }

    /** Clears the five flags, one after another. */
    method ResetTarget()
      requires Valid()
      modifies this
      ensures fill == NoneFilled
    {
      fill := fill[0 := false];
      fill := fill[1 := false];
      fill := fill[2 := false];
      fill := fill[3 := false];
      fill := fill[4 := false];
    }

    /** Marks the first target, in order, that the player at `pos` sits on. */
    method TargetFilling(pos: Vec)
      requires Valid()
      modifies this
      ensures Valid()
      ensures fill == MarkHit(old(fill), HitTarget(pos))
    {
      if Reach(pos, TargetPos[0]) {
        fill := fill[0 := true];
      } else if Reach(pos, TargetPos[1]) {
        fill := fill[1 := true];
      } else if Reach(pos, TargetPos[2]) {
        fill := fill[2 := true];
      } else if Reach(pos, TargetPos[3]) {
        fill := fill[3 := true];
      } else if Reach(pos, TargetPos[4]) {
        fill := fill[4 := true];
      }
    }

    /** The end-of-tick rules, in the game's order: the unfilled test reads
        the flags before the reached target is marked, and the all-filled test
        reads them after, clearing them all when it fires. */
    method HandleCollision(s: State) returns (r: State)
      requires Valid()
      modifies this
      ensures Valid()
      ensures (r, fill) == Collide(s, old(fill))
    {
      var hit := HitTarget(s.pos);
      var doublePoint := hit.Some? && !fill[hit.value];
      TargetFilling(s.pos);
      ghost var filled := fill;
      var checkValidation := 0;
      if AllFilled(fill) {
        ResetTarget();
        checkValidation := BonusPoint;
      }
      assert fill == (if AllFilled(filled) then NoneFilled else filled);
      assert checkValidation == BonusPoint <==> AllFilled(filled);
      r := s.(
        pos := if hit.Some? then InitialState().pos else s.pos,
        score :=
          if CheckFullyFill then InitialState().score
          else if doublePoint then s.score + 20
          else if hit.Some? then s.score + 10
          else s.score,
        gameOver := GameOverAt(s),
        maxScore :=
          if checkValidation == BonusPoint then
            (if s.score + BonusPoint > s.maxScore then s.score + BonusPoint else s.maxScore)
          else s.maxScore);
      ghost var c := Collide(s, old(fill));
      assert c.1 == fill;
      assert c.0 == r by {
        assert c.0.pos == r.pos && c.0.score == r.score;
        assert c.0.gameOver == r.gameOver && c.0.maxScore == r.maxScore;
      }
    }

    /** One tick: the physics, then the end-of-tick rules on the result. */
    method Tick(s: State, elapsed: int) returns (r: State)
      requires Valid()
      modifies this
      ensures Valid()
      ensures (r, fill) == Ticked(s, old(fill), elapsed)
    {
      r := HandleCollision(Advance(s, elapsed));
    }

    /** The reducer the event stream is folded with. */
    method ReduceState(s: State, e: Event) returns (r: State)
      requires Valid()
      modifies this
      ensures Valid()
      ensures (r, fill) == Step(s, old(fill), e)
    {
      match e
      case Movement(dx, dy) =>
        r := s.(pos := TorusWrap(s, dx, dy));
      case Reset =>
        if s.gameOver {
          ResetTarget();
          r := InitialState().(exit := s.exit + s.cars + s.planks + s.tiger);
        } else {
          r := s;
        }
      case Tick(elapsed) =>
        if !s.gameOver {
          r := Tick(s, elapsed);
        } else {
          r := s;
        }
    }
  }
}

=== FILE: layout.dfy ===
/** The game state and the fixed spawn tables it starts from. */
module Layout {
  import opened Vectors
  import opened Bodies
  import opened Motion

  /** One immutable snapshot of the game, rebuilt by every event. `pos` is the
      player's position; `frog` carries the player's extents. `exit` collects
      every body that ever left play or was discarded by a restart. */
  datatype State = State(
    frog: Body,
    score: int,
    maxScore: int,
    time: int,
    pos: Vec,
    cars: seq<Body>,
    planks: seq<Body>,
    tiger: seq<Body>,
    objCount: int,
    gameOver: bool,
    exit: seq<Body>,
    leaf: seq<Body>,
    tree: seq<Body>)

  /** A spawn-table entry for a moving body: position and speed. */
  datatype Row = Row(x: int, y: int, speed: real)

  /** A spawn-table entry for a body that stands still. */
  datatype Spot = Spot(x: int, y: int)

  /** The remainder of `y` by 100 as JavaScript's `%` computes it: truncated
      toward zero, so it takes the sign of `y`. */
  function LaneRem(y: int): (r: int)
    ensures -100 < r < 100
    ensures (y - r) % 100 == 0
    ensures y >= 0 ==> r >= 0
    ensures y <= 0 ==> r <= 0
  {
    if y >= 0 then y % 100 else -((-y) % 100)
  }

  // The spawn tables. A row holds a position and a speed; the game never
  // reads an acceleration, so rows carry none.
  const TreePos: seq<Spot> := [
    Spot(30, 400), Spot(150, 400), Spot(270, 400), Spot(390, 400), Spot(510, 400),
    Spot(120, 40), Spot(235, 40), Spot(355, 40), Spot(475, 40)]

  const CarRows: seq<Row> := [
    Row(100, 650, 0.8), Row(300, 650, 0.8), Row(500, 650, 0.8),
    Row(0, 350, 0.6), Row(200, 350, 0.6), Row(400, 350, 0.6),
    Row(100, 100, 0.5), Row(300, 100, 0.5), Row(500, 100, 0.5)]

  const PlankRows: seq<Row> := [
    Row(100, 590, 0.9), Row(300, 590, 0.9), Row(500, 590, 0.9),
    Row(100, 490, 0.5), Row(300, 490, 0.5), Row(500, 490, 0.5),
    Row(100, 190, 1.0), Row(300, 190, 1.0), Row(500, 190, 1.0)]

  const LeafPos: seq<Spot> := [
    Spot(90, 550), Spot(300, 550), Spot(510, 550),
    Spot(150, 250), Spot(330, 250), Spot(510, 250)]

  const TigerRows: seq<Row> := [
    Row(0, 280, 0.8), Row(200, 280, 0.8), Row(400, 280, 0.8),
    Row(100, 125, 0.8), Row(300, 125, 0.8), Row(500, 125, 0.8)]

  /** A table position as a vector. */
  function At(x: int, y: int): Vec {
    Vec(x as real, y as real)
  }

  /** A tree: a still rectangle at the given spot. */
  function NewTree(p: Spot, i: nat): (r: Body)
    ensures r.viewType == Tree && r.pos == At(p.x, p.y) && r.vel == Zero
    ensures r.width == TreeWidth && r.height == TreeHeight
  {
    CreateRect(Tree, i, TreeWidth, TreeHeight, At(p.x, p.y), Zero)
  }

  /** A car. Its lane direction comes from its row: in a row whose height
      leaves 50 modulo 100 it gets the table's speed, elsewhere its negation. */
  function NewCar(row: Row, i: nat): (r: Body)
    ensures r.viewType == Car && r.pos == At(row.x, row.y)
    ensures r.width == CarWidth && r.height == CarHeight
    ensures r.vel.y == 0.0
    ensures row.y >= 0 ==> r.vel.x == (if row.y % 100 == 50 then row.speed else -row.speed)
  {
    CreateRect(Car, i, CarWidth, CarHeight, At(row.x, row.y),
      if LaneRem(row.y) == 50 then Vec(row.speed, 0.0) else Vec(-row.speed, 0.0))
  }

  /** A plank. Its direction is decided like a car's, but on the height
      shifted by 10. */
  function NewPlank(row: Row, i: nat): (r: Body)
    ensures r.viewType == Plank && r.pos == At(row.x, row.y)
    ensures r.width == PlankWidth && r.height == PlankHeight
    ensures r.vel.y == 0.0
    ensures row.y >= -10 ==> r.vel.x == (if (row.y + 10) % 100 == 50 then row.speed else -row.speed)
  {
    CreateRect(Plank, i, PlankWidth, PlankHeight, At(row.x, row.y),
      if LaneRem(row.y + 10) == 50 then Vec(row.speed, 0.0) else Vec(-row.speed, 0.0))
  }

  /** A lotus leaf: a still circle at the given spot. */
  function NewLotusLeaf(p: Spot, i: nat): (r: Body)
    ensures r.viewType == LotusLeaf && r.pos == At(p.x, p.y) && r.vel == Zero
    ensures r.radius == LotusLeafRadius
  {
    CreateCirc(LotusLeaf, i, LotusLeafRadius, At(p.x, p.y), Zero)
  }

  /** A tiger: a square, directed like a car. */
  function NewTiger(row: Row, i: nat): (r: Body)
    ensures r.viewType == Tiger && r.pos == At(row.x, row.y)
    ensures r.width == TigerWidth && r.height == TigerWidth
    ensures r.vel.y == 0.0
    ensures row.y >= 0 ==> r.vel.x == (if row.y % 100 == 50 then row.speed else -row.speed)
  {
    CreateRect(Tiger, i, TigerWidth, TigerWidth, At(row.x, row.y),
      if LaneRem(row.y) == 50 then Vec(row.speed, 0.0) else Vec(-row.speed, 0.0))
  }

  /** The initial fleets: one body per table entry, of the fleet's kind, at
      the entry's position, its id the kind's name followed by its index. */
  function StartTrees(): (r: seq<Body>)
    ensures |r| == |TreePos|
    ensures forall i :: 0 <= i < |r| ==> r[i] == NewTree(TreePos[i], i)
    ensures forall i :: 0 <= i < |r| ==>
      r[i].viewType == Tree && r[i].pos == At(TreePos[i].x, TreePos[i].y)
      && r[i].id == ViewName(Tree) + NatToString(i)
  {
    seq(|TreePos|, i requires 0 <= i < |TreePos| => NewTree(TreePos[i], i))
  }

  function StartCars(): (r: seq<Body>)
    ensures |r| == |CarRows|
    ensures forall i :: 0 <= i < |r| ==> r[i] == NewCar(CarRows[i], i)
    ensures forall i :: 0 <= i < |r| ==>
      r[i].viewType == Car && r[i].pos == At(CarRows[i].x, CarRows[i].y)
      && r[i].id == ViewName(Car) + NatToString(i)
  {
    seq(|CarRows|, i requires 0 <= i < |CarRows| => NewCar(CarRows[i], i))
  }

  function StartPlanks(): (r: seq<Body>)
    ensures |r| == |PlankRows|
    ensures forall i :: 0 <= i < |r| ==> r[i] == NewPlank(PlankRows[i], i)
    ensures forall i :: 0 <= i < |r| ==>
      r[i].viewType == Plank && r[i].pos == At(PlankRows[i].x, PlankRows[i].y)
      && r[i].id == ViewName(Plank) + NatToString(i)
  {
    seq(|PlankRows|, i requires 0 <= i < |PlankRows| => NewPlank(PlankRows[i], i))
  }

  function StartLeaves(): (r: seq<Body>)
    ensures |r| == |LeafPos|
    ensures forall i :: 0 <= i < |r| ==> r[i] == NewLotusLeaf(LeafPos[i], i)
    ensures forall i :: 0 <= i < |r| ==>
      r[i].viewType == LotusLeaf && r[i].pos == At(LeafPos[i].x, LeafPos[i].y)
      && r[i].id == ViewName(LotusLeaf) + NatToString(i)
  {
    seq(|LeafPos|, i requires 0 <= i < |LeafPos| => NewLotusLeaf(LeafPos[i], i))
  }

  function StartTigers(): (r: seq<Body>)
    ensures |r| == |TigerRows|
    ensures forall i :: 0 <= i < |r| ==> r[i] == NewTiger(TigerRows[i], i)
    ensures forall i :: 0 <= i < |r| ==>
      r[i].viewType == Tiger && r[i].pos == At(TigerRows[i].x, TigerRows[i].y)
      && r[i].id == ViewName(Tiger) + NatToString(i)
  {
    seq(|TigerRows|, i requires 0 <= i < |TigerRows| => NewTiger(TigerRows[i], i))
  }

  /** The state before the game starts: the player at the start position,
      nothing scored, every fleet at its table position, `exit` empty. */
  function InitialState(): (r: State)
    ensures r.pos == Vec(InitX, InitY) && r.frog == CreateFrog()
    ensures r.score == 0 && r.maxScore == 0 && r.time == 0
    ensures !r.gameOver && r.exit == [] && r.objCount == StartCarCount
    ensures |r.cars| == 9 && |r.planks| == 9 && |r.tiger| == 6
    ensures |r.leaf| == 6 && |r.tree| == 9
    ensures r.cars == StartCars() && r.planks == StartPlanks() && r.tiger == StartTigers()
    ensures r.leaf == StartLeaves() && r.tree == StartTrees()
  {
    State(CreateFrog(), 0, 0, 0, Vec(InitX, InitY), StartCars(), StartPlanks(), StartTigers(),
      StartCarCount, false, [], StartLeaves(), StartTrees())
  }

  /** Every body of the initial layout starts in play, so the first tick
      recycles nothing and turns no tiger. */
  lemma InitialFleetsInPlay()
    ensures forall i :: 0 <= i < |InitialState().cars| ==> !Expired(InitialState().cars[i])
    ensures forall i :: 0 <= i < |InitialState().planks| ==> !Expired(InitialState().planks[i])
    ensures forall i :: 0 <= i < |InitialState().tiger| ==> !Expired(InitialState().tiger[i])
  {
    forall i | 0 <= i < 9 ensures !Expired(StartCars()[i]) && !Expired(StartPlanks()[i]) {
      assert 0 <= CarRows[i].x <= 500 && 0 <= PlankRows[i].x <= 500 by {
        assert i in {0, 1, 2, 3, 4, 5, 6, 7, 8};
      }
    }
    forall i | 0 <= i < 6 ensures !Expired(StartTigers()[i]) {
      assert 0 <= TigerRows[i].x <= 500 by {
        assert i in {0, 1, 2, 3, 4, 5};
      }
    }
  }

  /** Lane directions of the initial layout. The two lower car lanes get the
      positive speed (so, moving against the velocity, they drive left) and the
      top lane the negative one; every plank and every tiger gets the negative
      speed, since no plank row is 40 modulo 100 and no tiger row is 50. */
  lemma InitialLaneDirections()
    ensures forall i :: 0 <= i < 6 ==> InitialState().cars[i].vel.x > 0.0
    ensures forall i :: 6 <= i < 9 ==> InitialState().cars[i].vel.x < 0.0
    ensures forall i :: 0 <= i < 9 ==> InitialState().planks[i].vel.x < 0.0
    ensures forall i :: 0 <= i < 6 ==> InitialState().tiger[i].vel.x < 0.0
  {
    forall i | 0 <= i < 9
      ensures (i < 6 ==> StartCars()[i].vel.x > 0.0) && (6 <= i ==> StartCars()[i].vel.x < 0.0)
      ensures StartPlanks()[i].vel.x < 0.0
    {
      assert StartCars()[i] == NewCar(CarRows[i], i);
      assert StartPlanks()[i] == NewPlank(PlankRows[i], i);
      assert i in {0, 1, 2, 3, 4, 5, 6, 7, 8};
    }
    forall i | 0 <= i < 6 ensures StartTigers()[i].vel.x < 0.0 {
      assert StartTigers()[i] == NewTiger(TigerRows[i], i);
      assert i in {0, 1, 2, 3, 4, 5};
    }
  }
}

=== FILE: lists.dfy ===
/** The array operations the engine folds over its fleets: `filter`, `map`
    and the `not` combinator that negates a predicate. */
module Lists {

  /** The predicate that holds exactly where `p` does not. */
  function Not<T(!new)>(p: T -> bool): (q: T -> bool)
    ensures forall x :: q(x) == !p(x)
  {
    x => !p(x)
  }

  /** The elements of `s` that satisfy `p`, in their original order. */
  function Filter<T(!new)>(p: T -> bool, s: seq<T>): (r: seq<T>)
    ensures |r| <= |s|
    ensures forall x :: x in r ==> x in s && p(x)
    ensures (forall i :: 0 <= i < |s| ==> p(s[i])) ==> r == s
    ensures (forall i :: 0 <= i < |s| ==> !p(s[i])) ==> r == []
  {
    if s == [] then []
    else if p(s[0]) then [s[0]] + Filter(p, s[1..])
    else Filter(p, s[1..])
  }

  /** `f` applied to every element of `s`. */
  function Map<T, U>(f: T -> U, s: seq<T>): (r: seq<U>)
    ensures |r| == |s|
    ensures forall i :: 0 <= i < |s| ==> r[i] == f(s[i])
  {
    if s == [] then [] else [f(s[0])] + Map(f, s[1..])
  }

  /** A filter is non-empty exactly when some element satisfies the predicate. */
  lemma {:induction false} FilterNonEmpty<T(!new)>(p: T -> bool, s: seq<T>)
    ensures |Filter(p, s)| > 0 <==> exists i :: 0 <= i < |s| && p(s[i])
  {
    if s != [] {
      FilterNonEmpty(p, s[1..]);
      if exists i :: 0 <= i < |s[1..]| && p(s[1..][i]) {
        var i :| 0 <= i < |s[1..]| && p(s[1..][i]);
        assert p(s[i + 1]);
      }
      if exists i :: 0 <= i < |s| && p(s[i]) {
        var i :| 0 <= i < |s| && p(s[i]);
        if i > 0 {
          assert p(s[1..][i - 1]);
        }
      }
    }
  }

  /** A predicate and its negation split a sequence without loss. */
  lemma {:induction false} FilterCount<T(!new)>(p: T -> bool, s: seq<T>)
    ensures |Filter(p, s)| + |Filter(Not(p), s)| == |s|
  {
    if s != [] {
      FilterCount(p, s[1..]);
    }
  }

  /** Mapping distributes over concatenation. */
  lemma MapAppend<T, U>(f: T -> U, a: seq<T>, b: seq<T>)
    ensures Map(f, a + b) == Map(f, a) + Map(f, b)
  {
    assert forall i :: 0 <= i < |a + b| ==> Map(f, a + b)[i] == (Map(f, a) + Map(f, b))[i];
  }

  /** Mapping a sequence with a given first element. */
  lemma MapCons<T, U>(f: T -> U, x: T, a: seq<T>)
    ensures Map(f, [x] + a) == [f(x)] + Map(f, a)
  {
    assert ([x] + a)[1..] == a;
  }

  /** Splitting a sequence by a predicate and by its negation loses and adds
      nothing: the two filters, seen through any `f`, together hold exactly
      the elements of `s`. */
  lemma {:induction false} FilterPartition<T(!new), U>(f: T -> U, p: T -> bool, s: seq<T>)
    ensures multiset(Map(f, Filter(p, s))) + multiset(Map(f, Filter(Not(p), s))) == multiset(Map(f, s))
  {
    if s != [] {
      var x, t := s[0], s[1..];
      var yes, no := Filter(p, t), Filter(Not(p), t);
      FilterPartition(f, p, t);
      assert Map(f, s) == [f(x)] + Map(f, t);
      if p(x) {
        assert Filter(p, s) == [x] + yes;
        assert Filter(Not(p), s) == no;
        MapCons(f, x, yes);
      } else {
        assert Filter(p, s) == yes;
        assert Filter(Not(p), s) == [x] + no;
        MapCons(f, x, no);
      }
    }
  }
}

=== FILE: motion.dfy ===
/** Per-tick motion of the fleets: leaving the play area, being brought back
    at the opposite edge, the tigers' fleet-wide turn, and the move itself. */
module Motion {
  import opened Vectors
  import opened Lists
  import opened Bodies

  /** A body is out of play once it is more than 2 units past the right edge
      or more than 5 units past the left edge. */
  predicate Expired(b: Body): (r: bool)
    ensures r ==> b.pos.x < 0.0 || b.pos.x > CanvasW
    ensures 0.0 <= b.pos.x <= CanvasW ==> !r
  {
    b.pos.x > CanvasW + 2.0 || b.pos.x < -5.0
  }

  /** An expired car or plank re-enters at the opposite edge, at the same
      height; only its horizontal position changes. Bodies in play are left
      alone, and no revived body is out of play. */
  function Revive(b: Body): (r: Body)
    ensures r == b.(pos := Vec(r.pos.x, b.pos.y))
    ensures b.pos.x > CanvasW + 2.0 ==> r.pos.x == 0.0
    ensures b.pos.x < -5.0 ==> r.pos.x == CanvasW
    ensures !Expired(b) ==> r == b
    ensures !Expired(r)
  {
    if b.pos.x > CanvasW + 2.0 then b.(pos := Vec(0.0, b.pos.y))
    else if b.pos.x < -5.0 then b.(pos := Vec(CanvasW, b.pos.y))
    else b
  }

  /** A tiger turning back: same place, opposite velocity. */
  function Turnback(b: Body): (r: Body)
    ensures r == b.(vel := r.vel)
    ensures r.vel.Add(b.vel) == Zero
  {
    b.(pos := Vec(b.pos.x, b.pos.y), vel := Vec(0.0, 0.0).Sub(b.vel))
  }

  /** One step of motion: the position moves against the velocity, and the
      velocity's vertical part grows by one percent. Nothing else changes. */
  function MoveObj(b: Body): (r: Body)
    ensures r == b.(pos := r.pos, vel := r.vel)
    ensures r.pos.Add(b.vel) == b.pos
    ensures r.vel.x == b.vel.x && r.vel.y == b.vel.y * 1.01
    ensures b.vel.y == 0.0 ==> r.vel == b.vel
  {
    b.(pos := b.pos.Sub(b.vel), vel := b.vel.Scale(1.01))
  }

  /** A body with its horizontal position forgotten: what recycling keeps. */
  function ForgetX(b: Body): Body {
    b.(pos := Vec(0.0, b.pos.y))
  }

  /** A car or plank fleet after recycling: the bodies still in play, then the
      expired ones revived, each group in its original order. The fleet keeps
      its size and nothing in it is out of play afterwards; a fleet with
      nothing out of play is unchanged. */
  function RecycleFleet(bs: seq<Body>): (r: seq<Body>)
    ensures |r| == |bs|
    ensures forall i :: 0 <= i < |r| ==> !Expired(r[i])
    ensures (forall i :: 0 <= i < |bs| ==> !Expired(bs[i])) ==> r == bs
  {
    var active, gone := Filter(Not(Expired), bs), Filter(Expired, bs);
    FilterCount(Expired, bs);
    assert forall b :: b in active ==> !Expired(b);
    active + Map(Revive, gone)
  }

  /** Every body of a recycled fleet is the revival of some body of the old
      fleet (a body in play revives to itself). */
  lemma {:induction false} RecycledFromFleet(bs: seq<Body>)
    ensures forall i :: 0 <= i < |RecycleFleet(bs)| ==>
      exists j :: 0 <= j < |bs| && RecycleFleet(bs)[i] == Revive(bs[j])
  {
    var active, gone := Filter(Not(Expired), bs), Filter(Expired, bs);
    var r := RecycleFleet(bs);
    assert r == active + Map(Revive, gone);
    forall i | 0 <= i < |r|
      ensures exists j :: 0 <= j < |bs| && r[i] == Revive(bs[j])
    {
      var b := if i < |active| then active[i] else gone[i - |active|];
      assert b in bs && r[i] == Revive(b);
      var j :| 0 <= j < |bs| && bs[j] == b;
    }
  }

  /** Recycling only moves bodies horizontally and reorders them: forgetting
      horizontal positions, the fleet before and after holds the same bodies. */
  lemma {:induction false} RecyclePermutes(bs: seq<Body>)
    ensures multiset(Map(ForgetX, RecycleFleet(bs))) == multiset(Map(ForgetX, bs))
  {
    var active, gone := Filter(Not(Expired), bs), Filter(Expired, bs);
    MapAppend(ForgetX, active, Map(Revive, gone));
    assert Map(ForgetX, Map(Revive, gone)) == Map(ForgetX, gone) by {
      forall i | 0 <= i < |gone|
        ensures Map(ForgetX, Map(Revive, gone))[i] == Map(ForgetX, gone)[i]
      {
        assert Map(Revive, gone)[i] == Revive(gone[i]);
      }
    }
    FilterPartition(ForgetX, Expired, bs);
  }

  /** The tiger fleet turns back as one: when any tiger is out of play every
      tiger's velocity is reversed in place; otherwise the fleet is unchanged. */
  function WanderTiger(ts: seq<Body>): (r: seq<Body>)
    ensures |r| == |ts|
    ensures (exists i :: 0 <= i < |ts| && Expired(ts[i])) ==>
      forall i :: 0 <= i < |ts| ==> r[i] == Turnback(ts[i])
    ensures (forall i :: 0 <= i < |ts| ==> !Expired(ts[i])) ==> r == ts
  {
    FilterNonEmpty(Expired, ts);
    if |Filter(Expired, ts)| > 0 then Map(Turnback, ts) else ts
  }
}

=== FILE: scoring.dfy ===
/** The end-of-tick rules: collisions that end the game, and the five
    targets with their fill flags, points and bonus. */
module Scoring {
  import opened Vectors
  import opened Bodies
  import opened Layout

  datatype Option<T> = None | Some(value: T)

  /** The positions of target1 to target5, in the order the rules test them. */
  const TargetPos: seq<Vec> := [
    Vec(60.0, 50.0), Vec(180.0, 50.0), Vec(300.0, 50.0), Vec(420.0, 50.0), Vec(540.0, 50.0)]

  /** The five fill flags with no target filled. */
  const NoneFilled: seq<bool> := [false, false, false, false, false]

  /** A river is the open band of heights between its two edges. */
  datatype Band = Band(upperRange: real, lowerRange: real)

  const River1 := Band(190.0, 290.0)
  const River2 := Band(460.0, 610.0)

  /** Whether every one of the five targets is filled. */
  predicate AllFilled(fill: seq<bool>): (r: bool)
    requires |fill| == 5
    ensures r <==> forall k :: 0 <= k < 5 ==> fill[k]
    ensures !r <==> exists k :: 0 <= k < 5 && !fill[k]
  {
    fill[0] && fill[1] && fill[2] && fill[3] && fill[4]
  }

  /** The "all targets filled" test as the game evaluates it: once, when the
      game is set up, over flags that are all still false. */
  const CheckFullyFill: bool := AllFilled(NoneFilled)

  /** So the guarded score reset never fires. */
  lemma CheckFullyFillNeverHolds()
    ensures !CheckFullyFill
  {
  }

  /** The larger of two scores. */
  function Max(a: int, b: int): (r: int)
    ensures r >= a && r >= b && (r == a || r == b)
  {
    if a > b then a else b
  }

  /** A target counts only when the player sits exactly on it: both
      coordinate differences are zero. */
  function Reach(pos: Vec, t: Vec): (r: bool)
    ensures r <==> pos == t
  {
    pos.x - t.x == 0.0 && pos.y - t.y == 0.0
  }

  lemma TargetsDistinct()
    ensures forall j, k :: 0 <= j < 5 && 0 <= k < 5 && TargetPos[j] == TargetPos[k] ==> j == k
  {
    forall j, k | 0 <= j < 5 && 0 <= k < 5 && TargetPos[j] == TargetPos[k] ensures j == k {
      assert j in {0, 1, 2, 3, 4} && k in {0, 1, 2, 3, 4};
    }
  }

  /** The target the player sits on, if any. Targets lie apart, so there is
      at most one. */
  function HitTarget(pos: Vec): (r: Option<nat>)
    ensures r.Some? ==> r.value < 5 && pos == TargetPos[r.value]
    ensures forall k :: 0 <= k < 5 && pos == TargetPos[k] ==> r == Some(k)
    ensures r.None? <==> forall k :: 0 <= k < 5 ==> pos != TargetPos[k]
  {
    TargetsDistinct();
    if Reach(pos, TargetPos[0]) then Some(0)
    else if Reach(pos, TargetPos[1]) then Some(1)
    else if Reach(pos, TargetPos[2]) then Some(2)
    else if Reach(pos, TargetPos[3]) then Some(3)
    else if Reach(pos, TargetPos[4]) then Some(4)
    else None
  }

  /** The player is in a river when strictly between its edges and on
      neither a plank nor a lotus leaf. */
  function InRiver(s: State, river: Band): (r: bool)
    ensures r <==>
      && river.upperRange < s.pos.y < river.lowerRange
      && (forall i :: 0 <= i < |s.planks| ==> !BodiesCollided(s.pos, s.frog, s.planks[i]))
      && (forall i :: 0 <= i < |s.leaf| ==> !CircleBodyCollided(s.pos, s.frog, s.leaf[i]))
  {
    s.pos.y < river.lowerRange && s.pos.y > river.upperRange
    && !AnyCollided(s.pos, s.frog, s.planks) && !AnyCircleCollided(s.pos, s.frog, s.leaf)
  }

  /** The game ends when a car or a tiger touches the player or the player
      is in either river; judged at the player's position before any target
      sends it back to the start. */
  function GameOverAt(s: State): (r: bool)
    ensures r <==>
      || (exists i :: 0 <= i < |s.cars| && BodiesCollided(s.pos, s.frog, s.cars[i]))
      || InRiver(s, River1) || InRiver(s, River2)
      || (exists i :: 0 <= i < |s.tiger| && BodiesCollided(s.pos, s.frog, s.tiger[i]))
  {
    AnyCollided(s.pos, s.frog, s.cars) || InRiver(s, River1) || InRiver(s, River2)
    || AnyCollided(s.pos, s.frog, s.tiger)
  }

  /** The fill flags once the target the player sits on, if any, is marked. */
  function MarkHit(fill: seq<bool>, hit: Option<nat>): (r: seq<bool>)
    requires |fill| == 5
    requires hit.Some? ==> hit.value < 5
    ensures |r| == 5
    ensures hit.Some? ==> r[hit.value] && forall k :: 0 <= k < 5 && k != hit.value ==> r[k] == fill[k]
    ensures hit.None? ==> r == fill
  {
    match hit
    case None => fill
    case Some(k) => fill[k := true]
  }

  /** What the end-of-tick rules make of state `s` and fill flags `fill`: the
      new state and the new flags. A target the player sits on exactly is
      marked filled and sends the player back to the start, for 20 points if
      it was empty before and 10 if it was already filled. Whenever all five
      flags are then set, they are all cleared and the best score becomes at
      least the pre-award score plus the bonus; the bonus itself never enters
      the score. So no call leaves all five flags set, and the best score
      never drops. */
  function Collide(s: State, fill: seq<bool>): (r: (State, seq<bool>))
    requires |fill| == 5
    ensures |r.1| == 5 && !AllFilled(r.1)
    ensures r.0 == s.(pos := r.0.pos, score := r.0.score, gameOver := r.0.gameOver, maxScore := r.0.maxScore)
    ensures r.0.gameOver == GameOverAt(s)
    ensures r.0.maxScore >= s.maxScore && r.0.score >= s.score
    ensures forall k :: 0 <= k < 5 && s.pos == TargetPos[k] ==>
      && r.0.pos == Vec(InitX, InitY)
      && r.0.score == s.score + (if fill[k] then 10 else 20)
      && r.1 == (if AllFilled(fill[k := true]) then NoneFilled else fill[k := true])
      && r.0.maxScore == (if AllFilled(fill[k := true]) then Max(s.score + BonusPoint, s.maxScore) else s.maxScore)
    ensures (forall k :: 0 <= k < 5 ==> s.pos != TargetPos[k]) ==>
      && r.0.pos == s.pos
      && r.0.score == s.score
      && r.1 == (if AllFilled(fill) then NoneFilled else fill)
      && r.0.maxScore == (if AllFilled(fill) then Max(s.score + BonusPoint, s.maxScore) else s.maxScore)
  {
    var hit := HitTarget(s.pos);
    var doublePoint := hit.Some? && !fill[hit.value];
    var filled := MarkHit(fill, hit);
    var bonus := AllFilled(filled);
    var score :=
      if CheckFullyFill then InitialState().score
      else if doublePoint then s.score + 20
      else if hit.Some? then s.score + 10
      else s.score;
    var maxScore :=
      if bonus then (if s.score + BonusPoint > s.maxScore then s.score + BonusPoint else s.maxScore)
      else s.maxScore;
    (s.(pos := if hit.Some? then InitialState().pos else s.pos,
        score := score,
        gameOver := GameOverAt(s),
        maxScore := maxScore),
     if bonus then NoneFilled else filled)
  }
}

=== FILE: vectors.dfy ===
/** The game's two-dimensional vector value. */
module Vectors {

  /** An immutable point or displacement. */
  datatype Vec = Vec(x: real, y: real) {

    /** Componentwise sum. */
    function Add(b: Vec): Vec {
      Vec(x + b.x, y + b.y)
    }

    /** Both components multiplied by `s`: a factor of 1 keeps the vector,
        -1 negates both components, 0 gives the zero vector. */
    function Deduce(s: real): (r: Vec)
      ensures r.x == x * s && r.y == y * s
      ensures s == 1.0 ==> r == this
      ensures s == -1.0 ==> r.x == -x && r.y == -y
      ensures s == 0.0 ==> r == Vec(0.0, 0.0)
    {
      Vec(x * s, y * s)
    }

    /** The difference, computed as the sum with `b` scaled by -1; adding `b`
        back gives this vector again. */
    function Sub(b: Vec): (r: Vec)
      ensures r == Vec(x - b.x, y - b.y)
      ensures r.Add(b) == this
    {
      Add(b.Deduce(-1.0))
    }

    /** Scales the vertical component only; the horizontal one is kept, and a
        vector without vertical component is left as it is. */
    function Scale(s: real): (r: Vec)
      ensures r.x == x && r.y == y * s
      ensures s == 1.0 || y == 0.0 ==> r == this
    {
      Vec(x, y * s)
    }

    /** The squared length. The game's own `len` is its square root; the
        model compares squared lengths instead. */
    function Len2(): real {
      x * x + y * y
    }
  }

  /** The zero vector. */
  const Zero := Vec(0.0, 0.0)

  /** Addition is commutative, has the zero vector as identity, and is
      undone by subtraction. */
  lemma AddLaws(a: Vec, b: Vec)
    ensures a.Add(b) == b.Add(a)
    ensures a.Add(Zero) == a
    ensures a.Add(b).Sub(b) == a
  {
  }
}
